=== FILE: README.md ===
# bodyPlayer, modelled in Dafny

`bodyPlayer` replays recorded human motion on an iCub humanoid. It reads a reduced
human-data file with nine joint channels per tick. It lays six of them over the robot's
current pose, read from the encoders; hip roll, shoulder roll and shoulder yaw are read but
never used. It asks the operator before moving to the starting pose and again before
playing. It then streams one position command per limb group and tick. Every tick's commands go
through `safety_check`, which clamps each joint into a fixed [min, max] row and counts
the violations. The starting pose goes through a call that passes the arms in the leg
slots (see Findings).

The model has five modules, one file each:

- `joints.dfy` (`Joints`): the five limb groups (arms 7 joints, torso 3, legs 6), poses,
  and the five-matrix trajectory.
- `safety.dfy` (`Safety`): the limit tables and the per-joint two-test clamp. It also
  holds the per-group loop, as a method with loop invariants, and `safety_check`.
  `SaturatePose`, `ClampedBody` and `OutOfRange` are the reference meaning they are
  proved against.
- `loader.dfy` (`Loader`): the line layouts of `loadFileHumanData` and `loadFile`, on
  lines already split into numbers. Each layout comes with the writer it inverts.
- `composer.dfy` (`Composer`): `startingPointHumanData` and
  `loadHumanDataOnRobotTrajectory`. They are tied to one declarative relation,
  `ComposedFrom`, which says which joint takes which channel and which keeps its baseline.
- `playback.dfy` (`Playback`): `main` from the start option on:
  - rejecting a failed load or a start index past the end;
  - the two confirmation gates;
  - the move to the starting pose;
  - the tick loop.

  Every position command and the final driver release are recorded in an event log, and the session's phases are
  recorded as a trace.

Angles are `real`: the player only compares and copies them.

## Model

| member | source | states |
|---|---|---|
| Safety.TableOf | robot_get_up/bodyPlayer.cpp:473-505 | each group's table has one row per joint of the group (7, 3, 6), and every row has max >= min; both arms share one table, and so do both legs |
| Safety.ClampJoint | robot_get_up/bodyPlayer.cpp:511-512 | the test against max, then the separate test against min, gives the nearest admissible angle; it counts a violation exactly when the input lay outside the row, and never more than one |
| Safety.ClampGroup | robot_get_up/bodyPlayer.cpp:509-536 | one group's loop leaves every joint inside its row, equal to its saturation; the returned count is the number of joints that lay outside their rows; the result is the one `ClampFirst` gives for a bound equal to the group's joint count |
| Safety.SafetyCheck | robot_get_up/bodyPlayer.cpp:458-539 | the full check returns the five saturated groups, all inside their tables, and counts the out-of-range joints over all five groups |
| Safety.SafeHasNoViolations | robot_get_up/bodyPlayer.cpp:507-538 | a pose gets a count of zero if and only if every joint already lies inside its row |
| Safety.SafeUnchanged | robot_get_up/bodyPlayer.cpp:511-536 | a pose already inside the tables is dispatched unchanged |
| Safety.ClampIdempotent | robot_get_up/bodyPlayer.cpp:458-539 | clamping a clamped pose changes nothing and counts no violation |
| Safety.ViolatingSnoc | robot_get_up/bodyPlayer.cpp:509-516 | adding one joint to a group adds one to the violation count exactly when that joint lies outside its row |
| Safety.ClampFirst | robot_get_up/bodyPlayer.cpp:528-536 | a loop over the first n joints is defined only while n fits both the pose and the table; inside that, the first n joints are saturated and the rest are untouched |
| Safety.LegLoopAsWrittenOverruns | robot_get_up/bodyPlayer.cpp:528 | the leg loop bound 7 runs past the six-joint legs and the six-row leg table |
| Safety.LegLoopCorrected | robot_get_up/bodyPlayer.cpp:528-536 | with bound 6 the leg loop clamps the whole leg and counts its out-of-range joints |
| Safety.ShoulderPitchExample | robot_get_up/bodyPlayer.cpp:473 | shoulder pitch 100 becomes 6 with one violation; -50 is kept with none |
| Loader.LoadHumanData | robot_get_up/bodyPlayer.cpp:198-277 | an unopenable file fails; otherwise there is one tick per line, all nine series have that length, and tick c is line c read through the reduced layout |
| Loader.ParseHumanLine | robot_get_up/bodyPlayer.cpp:259-270 | field k+1 of a line is stored in channel k, for each of the nine channels in file order, and a field the line lacks reads 0 |
| Loader.HumanLine | robot_get_up/bodyPlayer.cpp:259-270 | the ten-field line written for a tick reads back as that tick |
| Loader.HumanLineLayout | robot_get_up/bodyPlayer.cpp:259-270 | the leading counter never reaches a channel, and fields past the tenth are ignored |
| Loader.LoadHumanDataRoundTrip | robot_get_up/bodyPlayer.cpp:198-277 | loading the file written for a nine-series recording gives the recording back, whatever the counters |
| Loader.UpperColumnsBijective | robot_get_up/bodyPlayer.cpp:156-189 | the 17 joint columns name 17 distinct upper-body joints, and every arm and torso joint has a column |
| Loader.ParseUpperLine | robot_get_up/bodyPlayer.cpp:146-189 | after the seven floating-base fields, column k is stored at the joint the column table names |
| Loader.UpperLine | robot_get_up/bodyPlayer.cpp:146-189 | the line written for an upper-body tick reads back as that tick |
| Loader.LoadUpperBody | robot_get_up/bodyPlayer.cpp:104-195 | an unopenable file fails; otherwise there is one tick per line in each of the three matrices, and tick c is line c read through the column table |
| Loader.LoadUpperBodyRoundTrip | robot_get_up/bodyPlayer.cpp:104-195 | loading the file written for an upper-body trajectory gives it back, whatever the floating-base fields |
| Composer.StartingPoint | robot_get_up/bodyPlayer.cpp:279-322 | there is no starting pose exactly when the data has no tick; otherwise it is tick 0 laid over the baseline, with shoulder pitch, elbow, hip pitch, knee and ankle pitch on both sides, torso pitch on torso joint 2, and every other joint at its baseline |
| Composer.ComposeTrajectory | robot_get_up/bodyPlayer.cpp:324-398 | there is no trajectory exactly when the data has no tick; otherwise there are as many ticks as samples, and every tick is its sample laid over the baseline |
| Composer.ComposedFromUnique | robot_get_up/bodyPlayer.cpp:350-392 | a sample and a baseline determine the composed pose |
| Composer.StartingPoseIsTickZero | robot_get_up/bodyPlayer.cpp:866-876 | the starting pose is tick 0 of the trajectory that is played |
| Composer.UnmappedChannelsIgnored | robot_get_up/bodyPlayer.cpp:292-392 | hip roll, shoulder roll and shoulder yaw never reach a joint: changing only them changes neither the starting pose nor the trajectory |
| Composer.ComposeExample | robot_get_up/bodyPlayer.cpp:364-392 | a worked tick over an all-zero baseline puts each channel on its joint on both sides |
| Playback.StartIndex | robot_get_up/bodyPlayer.cpp:606-620 | with no start option the start tick is 0, and a negative one is reset to 0; otherwise it is kept |
| Playback.DispatchedLength | robot_get_up/bodyPlayer.cpp:1044-1070 | ticks a..b-1 send five commands each |
| Playback.DispatchedAt | robot_get_up/bodyPlayer.cpp:1044-1061 | the commands go out tick after tick in increasing order: command 5(t-a)+g is the g-th move of tick t |
| Playback.DispatchedSafe | robot_get_up/bodyPlayer.cpp:1052-1061 | every command the tick loop sends lies inside its group's table |
| Playback.SafeTrajectoryPlayedVerbatim | robot_get_up/bodyPlayer.cpp:1044-1061 | a trajectory already inside the tables is sent exactly as composed, with zero violations |
| Playback.PlayTrajectory | robot_get_up/bodyPlayer.cpp:1044-1070 | the loop from the start tick to the last sends the clamped moves of each tick in order (torso, right arm, left arm, right leg, left leg), five per tick, and totals the out-of-range joints |
| Playback.SessionLogSafe | robot_get_up/bodyPlayer.cpp:926-935 | the starting moves, the tick loop's moves and the final release keep every command inside the tables |
| Playback.Session | robot_get_up/bodyPlayer.cpp:878-1100 | declining at the first prompt only releases the drivers. Declining at the second sends the clamped starting pose (arms, legs, torso), then releases. Confirming both also plays from the start tick, then releases. Every run exits 0, and every command is inside the tables |
| Playback.Run | robot_get_up/bodyPlayer.cpp:606-1100 | exit -1 exactly when the load fails or the start tick is not below the tick count, and then nothing is sent. Every run is a complete phase trace from `Idle` to a terminal phase, and every command is inside the tables. An accepted run ends by releasing the drivers |
| Playback.StartingCheckAsWritten | robot_get_up/bodyPlayer.cpp:878 | with the arm vectors passed in the leg slots, each of the first six joints of both arms is clamped into its arm row and then into the leg row; joint 6 keeps its arm clamp in this model; the C++ reads past the leg tables at that index. The legs are not clamped, and the torso is clamped normally. The count is the arm and torso joints outside their own rows plus the clamped arm joints outside a leg row |
| Playback.LegPassCount | robot_get_up/bodyPlayer.cpp:528-536 | the leg loop run over a clamped arm counts exactly the arm joints that lie outside the leg row of the same index |
| Playback.StartingCheckAsWrittenUnsafe | robot_get_up/bodyPlayer.cpp:878 | for every starting pose, the as-written check sends both elbows at 0, below their arm minimum 15, so the pose sent is never inside the tables (`Safety.ClampedBodySafe` shows the full check always sends a safe one) |
| Playback.StartingCheckAsWrittenExample | robot_get_up/bodyPlayer.cpp:279-322 | a starting pose `startingPointHumanData` does build, with both hips at 100: as written the hips go out at 100, above their maximum 85, and the elbows at 0 |


## Left out

- Command-line parsing, the help exit, the robot name, verbosity and console output. The
  start option reaches the model already parsed, as an optional integer.
- The YARP network check and the opening of the five drivers. Their failures exit -1, which
  is not modelled. Neither is the failed-open path that leaks the drivers already opened.
- Encoder reads with their retry loop, axis counts, the reference acceleration and speed
  setup sent to the boards, control modes and delays. The encoder
  baseline is an input (`base`), and the command vectors are taken to have the joint counts
  of the tables.
- Reading text into numbers. A file is modelled as the numbers of each line. A field the line
  does not have reads as 0, because the loader zeroes every destination first. The code has
  no parse error; a token that is not a number, which makes the C++ stream stop reading, is
  not modelled.
- An empty file loads with zero ticks, as in the code; there is no separate empty-file error.
  The session then exits -1 because every start tick is out of range.
- `loadFile` is modelled (`LoadUpperBody`), but `main` does not call it. Its timestamps
  matrix is never filled, and it is left out.
- `safety_check_upperbody` and the commented-out blocks: the old upper-body loop and the
  direct-position mode switch. None of them is reached.
- Playback.StartingCheckAsWritten: the leg pass over the arm vectors is cut at six joints.
  Its iteration 6 reads `max_RL[6]` and `min_RL[6]`, past the six-row leg tables, which has
  no defined result, so joint 6 keeps its arm clamp in this model.
- Playback.Run: the as-written starting-pose check (see Findings) is not what `Run` uses.
  `Run` clamps the starting pose with the full five-group check. It does not model the
  as-written leg-loop pass on the arm vectors reading index 6 of the leg table.
- Playback.Run: the console report of the starting-pose violation count is not modelled.
  That count does not change the path of the session.
- Playback.Session: the total violation count of the tick loop is printed at the end and
  does not change the session. `PlayTrajectory` returns it and states its value, but
  `Session` and `Run` do not pass it on.

## Findings

| source | as written | input that shows it | evidently intended | confidence | as-written member | corrected member |
|---|---|---|---|---|---|---|
| robot_get_up/bodyPlayer.cpp:528 | the leg loop runs `i` from 0 to 6, seven iterations over six-joint leg vectors and six-row leg tables | any call: iteration `i = 6` reads, and may write, `command_RL[6]` and reads `max_RL[6]`, outside every six-element vector | bound 6 (`nJointsLegs`) | high, not executed | Safety.LegLoopAsWrittenOverruns | Safety.LegLoopCorrected |
| robot_get_up/bodyPlayer.cpp:878 | the starting pose is checked with `safety_check(command_RA, command_LA, command_T, command_RA, command_LA)`: the arms are clamped a second time against the leg table, and the legs are never clamped | any starting pose: the elbows are sent at 0, below their minimum 15, since the arm row [15, 85] and the knee row [-99, 0] do not overlap; recorded hip pitch 100 is also sent unclamped, above its maximum 85 | `safety_check(command_RA, command_LA, command_T, command_RL, command_LL)` | high, not executed | Playback.StartingCheckAsWrittenUnsafe | Playback.Session |

=== FILE: composer.dfy ===
/** Composition of the reduced human data onto the robot: every tick starts from the baseline
    pose read from the encoders, and only six joints per side (and one torso joint) are taken
    from the data. Hip roll, shoulder roll and shoulder yaw are loaded but never mapped. */
module Composer {
  import opened Joints
  import opened Loader

  /** Arm joints written from the data: shoulder pitch (0) and elbow (3). */
  predicate MappedArmJoint(j: nat) { j == 0 || j == 3 }

  /** Torso joint written from the data: pitch (2). */
  predicate MappedTorsoJoint(j: nat) { j == 2 }

  /** Leg joints written from the data: hip pitch (0), knee (3), ankle pitch (4). */
  predicate MappedLegJoint(j: nat) { j == 0 || j == 3 || j == 4 }

  /** `p` is what one tick of `s` becomes on top of `base`: the mapped joints carry their
      channel on both sides, and every other joint keeps its baseline angle. */
  predicate ComposedFrom(s: HumanSample, base: BodyPose, p: BodyPose)
    requires base.WellFormed()
  {
    && p.WellFormed()
    && p.torso[2] == s.torsoPitch
    && p.ra[0] == s.shoulderPitch && p.la[0] == s.shoulderPitch
    && p.ra[3] == s.elbow && p.la[3] == s.elbow
    && p.rl[0] == s.hipPitch && p.ll[0] == s.hipPitch
    && p.rl[3] == s.knee && p.ll[3] == s.knee
    && p.rl[4] == s.anklePitch && p.ll[4] == s.anklePitch
    && (forall j :: 0 <= j < ArmJoints && !MappedArmJoint(j) ==> p.ra[j] == base.ra[j] && p.la[j] == base.la[j])
    && (forall j :: 0 <= j < TorsoJoints && !MappedTorsoJoint(j) ==> p.torso[j] == base.torso[j])
    && (forall j :: 0 <= j < LegJoints && !MappedLegJoint(j) ==> p.rl[j] == base.rl[j] && p.ll[j] == base.ll[j])
  }

  /** A tick's composed pose is determined by its sample and the baseline. */
  lemma ComposedFromUnique(s: HumanSample, base: BodyPose, p: BodyPose, q: BodyPose)
    requires base.WellFormed()
    requires ComposedFrom(s, base, p) && ComposedFrom(s, base, q)
    ensures p == q
  {
    assert forall j :: 0 <= j < ArmJoints ==> p.ra[j] == q.ra[j] && p.la[j] == q.la[j];
    assert forall j :: 0 <= j < TorsoJoints ==> p.torso[j] == q.torso[j];
    assert forall j :: 0 <= j < LegJoints ==> p.rl[j] == q.rl[j] && p.ll[j] == q.ll[j];
    assert p.ra == q.ra && p.la == q.la && p.torso == q.torso;
    assert p.rl == q.rl && p.ll == q.ll;
  }

  /** `startingPointHumanData`: the first tick laid over the baseline; `None` (the C++
      returns `false`, its outputs untouched) when the data has no tick. */
  function StartingPoint(h: HumanData, base: BodyPose): (r: Option<BodyPose>)
    requires h.Valid() && base.WellFormed()
    ensures r.None? <==> h.Ticks() == 0
    ensures r.Some? ==> ComposedFrom(h.SampleAt(0), base, r.value)
  {
    if h.Ticks() < 1 then None
    else
      Some(base.(
        torso := base.torso[2 := h.torsoPitch[0]],
        ra := base.ra[0 := h.shoulderPitch[0]][3 := h.elbow[0]],
        la := base.la[0 := h.shoulderPitch[0]][3 := h.elbow[0]],
        ll := base.ll[0 := h.hipPitch[0]][3 := h.knee[0]][4 := h.anklePitch[0]],
        rl := base.rl[0 := h.hipPitch[0]][3 := h.knee[0]][4 := h.anklePitch[0]]))
  }

  /** Row `c` of an arm matrix: the baseline arm, then shoulder pitch and elbow. */
  function ArmRow(h: HumanData, base: Pose, c: nat): Pose
    requires h.Valid() && c < h.Ticks() && |base| == ArmJoints
  {
    base[0 := h.shoulderPitch[c]][3 := h.elbow[c]]
  }

  /** Row `c` of a leg matrix: the baseline leg, then hip pitch, knee and ankle pitch. */
  function LegRow(h: HumanData, base: Pose, c: nat): Pose
    requires h.Valid() && c < h.Ticks() && |base| == LegJoints
  {
    base[0 := h.hipPitch[c]][3 := h.knee[c]][4 := h.anklePitch[c]]
  }

  /** `loadHumanDataOnRobotTrajectory`: every tick of the data laid over the baseline; `None`
      (the C++ returns `false`, its matrices untouched) when the data has no tick. */
  function ComposeTrajectory(h: HumanData, base: BodyPose): (r: Option<Trajectory>)
    requires h.Valid() && base.WellFormed()
    ensures r.None? <==> h.Ticks() == 0
    ensures r.Some? ==> r.value.Valid() && r.value.Ticks() == h.Ticks()
    ensures r.Some? ==> forall c :: 0 <= c < h.Ticks() ==> ComposedFrom(h.SampleAt(c), base, r.value.At(c))
  {
    var n := h.Ticks();
    if n < 1 then None
    else
      Some(Trajectory(
        seq(n, c requires 0 <= c < n => ArmRow(h, base.ra, c)),
        seq(n, c requires 0 <= c < n => ArmRow(h, base.la, c)),
        seq(n, c requires 0 <= c < n => base.torso[2 := h.torsoPitch[c]]),
        seq(n, c requires 0 <= c < n => LegRow(h, base.rl, c)),
        seq(n, c requires 0 <= c < n => LegRow(h, base.ll, c))))
  }

  /** The pose sent before playback is tick 0 of the trajectory played afterwards. */
  lemma StartingPoseIsTickZero(h: HumanData, base: BodyPose)
    requires h.Valid() && base.WellFormed() && h.Ticks() > 0
    ensures StartingPoint(h, base).Some? && ComposeTrajectory(h, base).Some?
    ensures StartingPoint(h, base).value == ComposeTrajectory(h, base).value.At(0)
  {
    ComposedFromUnique(h.SampleAt(0), base, StartingPoint(h, base).value, ComposeTrajectory(h, base).value.At(0));
  }

  /** The six mapped channels agree tick by tick. */
  predicate SameMappedChannels(h: HumanData, h': HumanData)
    requires h.Valid() && h'.Valid()
  {
    && h.hipPitch == h'.hipPitch && h.knee == h'.knee && h.anklePitch == h'.anklePitch
    && h.shoulderPitch == h'.shoulderPitch && h.elbow == h'.elbow && h.torsoPitch == h'.torsoPitch
  }

  /** Hip roll, shoulder roll and shoulder yaw never reach a joint: data differing only in
      those channels yields the same starting pose and the same trajectory. */
  lemma UnmappedChannelsIgnored(h: HumanData, h': HumanData, base: BodyPose)
    requires h.Valid() && h'.Valid() && base.WellFormed()
    requires SameMappedChannels(h, h')
    ensures StartingPoint(h, base) == StartingPoint(h', base)
    ensures ComposeTrajectory(h, base) == ComposeTrajectory(h', base)
  {
    if h.Ticks() > 0 {
      var t := ComposeTrajectory(h, base).value;
      var t' := ComposeTrajectory(h', base).value;
      forall c | 0 <= c < h.Ticks()
        ensures t.At(c) == t'.At(c)
      {
        ComposedFromUnique(h.SampleAt(c), base, t.At(c), t'.At(c));
      }
      assert t.ra == t'.ra && t.la == t'.la && t.torso == t'.torso;
      assert t.rl == t'.rl && t.ll == t'.ll;
      ComposedFromUnique(h.SampleAt(0), base, StartingPoint(h, base).value, StartingPoint(h', base).value);
    }
  }

  const ZeroBaseline: BodyPose := BodyPose(
    [0.0, 0.0, 0.0, 0.0, 0.0, 0.0, 0.0], [0.0, 0.0, 0.0, 0.0, 0.0, 0.0, 0.0],
    [0.0, 0.0, 0.0], [0.0, 0.0, 0.0, 0.0, 0.0, 0.0], [0.0, 0.0, 0.0, 0.0, 0.0, 0.0])

  /** A worked case: first tick {hip pitch 10, knee -5, ankle pitch 2,
      shoulder pitch 3, elbow 20, torso pitch 1, the rest 0} over an all-zero baseline. */
  lemma ComposeExample(h: HumanData)
    requires h.Valid() && h.Ticks() > 0
    requires h.SampleAt(0) == HumanSample(10.0, 0.0, -5.0, 2.0, 3.0, 0.0, 0.0, 20.0, 1.0)
    ensures ComposeTrajectory(h, ZeroBaseline).Some?
    ensures ComposeTrajectory(h, ZeroBaseline).value.At(0) == BodyPose(
              [3.0, 0.0, 0.0, 20.0, 0.0, 0.0, 0.0], [3.0, 0.0, 0.0, 20.0, 0.0, 0.0, 0.0],
              [0.0, 0.0, 1.0], [10.0, 0.0, 0.0, -5.0, 2.0, 0.0], [10.0, 0.0, 0.0, -5.0, 2.0, 0.0])
  {
    var expected := BodyPose(
      [3.0, 0.0, 0.0, 20.0, 0.0, 0.0, 0.0], [3.0, 0.0, 0.0, 20.0, 0.0, 0.0, 0.0],
      [0.0, 0.0, 1.0], [10.0, 0.0, 0.0, -5.0, 2.0, 0.0], [10.0, 0.0, 0.0, -5.0, 2.0, 0.0]);
    assert ComposedFrom(h.SampleAt(0), ZeroBaseline, expected);
    ComposedFromUnique(h.SampleAt(0), ZeroBaseline, expected, ComposeTrajectory(h, ZeroBaseline).value.At(0));
  }
}

=== FILE: joints.dfy ===
/** Limb groups, joint counts, poses and trajectories of the humanoid the body player drives.
    Angles are degrees held as `real`: the player only compares and copies them. */
module Joints {

  datatype Option<+T> = None | Some(value: T)

  /** The five limb groups; each is addressed through its own motion-control board. */
  datatype Limb = RightArm | LeftArm | Torso | RightLeg | LeftLeg

  const ArmJoints: nat := 7
  const TorsoJoints: nat := 3
  const LegJoints: nat := 6

  function JointCount(g: Limb): nat {
    match g
    case RightArm | LeftArm => ArmJoints
    case Torso => TorsoJoints
    case RightLeg | LeftLeg => LegJoints
  }

  /** Joint angles of one limb group, indexed from 0 in the board's axis order. */
  type Pose = seq<real>

  /** One full-body configuration: a pose per limb group. */
  datatype BodyPose = BodyPose(ra: Pose, la: Pose, torso: Pose, rl: Pose, ll: Pose) {

    function Get(g: Limb): Pose {
      match g
      case RightArm => ra
      case LeftArm => la
      case Torso => torso
      case RightLeg => rl
      case LeftLeg => ll
    }

    /** Every group carries exactly its joint count. */
    predicate WellFormed() {
      && |ra| == ArmJoints && |la| == ArmJoints && |torso| == TorsoJoints
      && |rl| == LegJoints && |ll| == LegJoints
    }
  }

  /** A composed trajectory: one matrix (tick-major rows) per limb group. */
  datatype Trajectory = Trajectory(ra: seq<Pose>, la: seq<Pose>, torso: seq<Pose>, rl: seq<Pose>, ll: seq<Pose>) {

    function Ticks(): nat { |ra| }

    /** All groups share one tick count and every row is a well-formed pose. */
    predicate Valid() {
      && |la| == |ra| && |torso| == |ra| && |rl| == |ra| && |ll| == |ra|
      && forall c :: 0 <= c < |ra| ==> BodyPose(ra[c], la[c], torso[c], rl[c], ll[c]).WellFormed()
    }

    /** The full-body pose of tick `c`. */
    function At(c: nat): (p: BodyPose)
      requires Valid() && c < Ticks()
      ensures p.WellFormed()
    {
      BodyPose(ra[c], la[c], torso[c], rl[c], ll[c])
    }
  }
}

=== FILE: loader.dfy ===
/** Record layouts of the two trajectory files. A file is modelled after tokenisation: one
    sequence of numbers per line (`Lines`), or `Unreadable` when it cannot be opened. A token
    the line does not have reads as 0, since every destination is zeroed before the line is
    scanned and a failed extraction leaves 0 in it. */
module Loader {
  import opened Joints

  datatype File = Unreadable | Lines(lines: seq<seq<real>>)

  /** Field `k` (0-based) of a tokenised line. */
  function Field(line: seq<real>, k: nat): real {
    if k < |line| then line[k] else 0.0
  }

  // ---------------------------------------------------------------------------------------
  // Reduced human data: a counter, then nine channels.

  /** The nine channels of one tick, in file order. */
  datatype HumanSample = HumanSample(
    hipPitch: real, hipRoll: real, knee: real, anklePitch: real,
    shoulderPitch: real, shoulderRoll: real, shoulderYaw: real, elbow: real, torsoPitch: real)
  {
    /** The nine channels in file order. */
    function Channels(): (cs: seq<real>)
      ensures |cs| == HumanChannels
    {
      [hipPitch, hipRoll, knee, anklePitch, shoulderPitch, shoulderRoll, shoulderYaw, elbow, torsoPitch]
    }
  }

  const HumanChannels: nat := 9

  /** The nine channels as nine time series, as the loader fills them. */
  datatype HumanData = HumanData(
    hipPitch: seq<real>, hipRoll: seq<real>, knee: seq<real>, anklePitch: seq<real>,
    shoulderPitch: seq<real>, shoulderRoll: seq<real>, shoulderYaw: seq<real>,
    elbow: seq<real>, torsoPitch: seq<real>)
  {
    function Ticks(): nat { |hipPitch| }

    /** All nine series share the tick count. */
    predicate Valid() {
      && |hipRoll| == Ticks() && |knee| == Ticks() && |anklePitch| == Ticks()
      && |shoulderPitch| == Ticks() && |shoulderRoll| == Ticks() && |shoulderYaw| == Ticks()
      && |elbow| == Ticks() && |torsoPitch| == Ticks()
    }

    function SampleAt(c: nat): HumanSample
      requires Valid() && c < Ticks()
    {
      HumanSample(hipPitch[c], hipRoll[c], knee[c], anklePitch[c], shoulderPitch[c],
                  shoulderRoll[c], shoulderYaw[c], elbow[c], torsoPitch[c])
    }
  }

  /** A counter followed by the nine channels. */
  const HumanLineWidth: nat := 10

  /** One line of the reduced file: field 0 is skipped, fields 1..9 are the channels. */
  function ParseHumanLine(line: seq<real>): (s: HumanSample)
    ensures forall k :: 0 <= k < HumanChannels ==> s.Channels()[k] == Field(line, k + 1)
  {
    HumanSample(Field(line, 1), Field(line, 2), Field(line, 3), Field(line, 4), Field(line, 5),
                Field(line, 6), Field(line, 7), Field(line, 8), Field(line, 9))
  }

  /** The leading counter never reaches a channel, and tokens past the tenth are ignored. */
  lemma HumanLineLayout(line: seq<real>, counter: real)
    requires 0 < |line|
    ensures ParseHumanLine([counter] + line[1..]) == ParseHumanLine(line)
    ensures |line| >= HumanLineWidth ==> ParseHumanLine(line[..HumanLineWidth]) == ParseHumanLine(line)
  {
  }

  /** The line a recorder writes for one tick. */
  function HumanLine(counter: real, s: HumanSample): (line: seq<real>)
    ensures |line| == HumanLineWidth && line[0] == counter
    ensures ParseHumanLine(line) == s
  {
    [counter, s.hipPitch, s.hipRoll, s.knee, s.anklePitch, s.shoulderPitch,
     s.shoulderRoll, s.shoulderYaw, s.elbow, s.torsoPitch]
  }

  /** `loadFileHumanData`: one tick per line, every channel filled from its column. */
  function LoadHumanData(f: File): (r: Option<HumanData>)
    ensures r.None? <==> f.Unreadable?
    ensures r.Some? ==> r.value.Valid() && r.value.Ticks() == |f.lines|
    ensures r.Some? ==> forall c :: 0 <= c < |f.lines| ==> r.value.SampleAt(c) == ParseHumanLine(f.lines[c])
  {
    match f
    case Unreadable => None
    case Lines(ls) =>
      var n := |ls|;
      Some(HumanData(
        seq(n, c requires 0 <= c < n => Field(ls[c], 1)),
        seq(n, c requires 0 <= c < n => Field(ls[c], 2)),
        seq(n, c requires 0 <= c < n => Field(ls[c], 3)),
        seq(n, c requires 0 <= c < n => Field(ls[c], 4)),
        seq(n, c requires 0 <= c < n => Field(ls[c], 5)),
        seq(n, c requires 0 <= c < n => Field(ls[c], 6)),
        seq(n, c requires 0 <= c < n => Field(ls[c], 7)),
        seq(n, c requires 0 <= c < n => Field(ls[c], 8)),
        seq(n, c requires 0 <= c < n => Field(ls[c], 9))))
  }

  /** The file a recorder writes for `h`, with the given counters. */
  function HumanFile(counters: seq<real>, h: HumanData): (f: File)
    requires h.Valid() && |counters| == h.Ticks()
    ensures f.Lines? && |f.lines| == h.Ticks()
  {
    Lines(seq(h.Ticks(), c requires 0 <= c < h.Ticks() => HumanLine(counters[c], h.SampleAt(c))))
  }

  /** Loading what the recorder wrote gives back the nine series, whatever the counters. */
  lemma LoadHumanDataRoundTrip(counters: seq<real>, h: HumanData)
    requires h.Valid() && |counters| == h.Ticks()
    ensures LoadHumanData(HumanFile(counters, h)) == Some(h)
  {
    var f := HumanFile(counters, h);
    var r := LoadHumanData(f).value;
    forall c | 0 <= c < h.Ticks()
      ensures r.SampleAt(c) == h.SampleAt(c)
    {
      assert f.lines[c] == HumanLine(counters[c], h.SampleAt(c));
    }
    assert r.hipPitch == h.hipPitch;
    assert r.hipRoll == h.hipRoll;
    assert r.knee == h.knee;
    assert r.anklePitch == h.anklePitch;
    assert r.shoulderPitch == h.shoulderPitch;
    assert r.shoulderRoll == h.shoulderRoll;
    assert r.shoulderYaw == h.shoulderYaw;
    assert r.elbow == h.elbow;
    assert r.torsoPitch == h.torsoPitch;
  }

  // ---------------------------------------------------------------------------------------
  // Full upper-body recording: seven floating-base fields, then seventeen joint columns.

  /** The floating-base pose that leads each line; read and discarded. */
  const FloatingBaseFields: nat := 7

  datatype JointRef = JointRef(group: Limb, joint: nat)

  /** Destination of each joint column, in file order. */
  const UpperColumns: seq<JointRef> := [
    JointRef(Torso, 0),
    JointRef(LeftArm, 3), JointRef(LeftArm, 4), JointRef(LeftArm, 6), JointRef(LeftArm, 0),
    JointRef(LeftArm, 1), JointRef(LeftArm, 2), JointRef(LeftArm, 5),
    JointRef(RightArm, 3), JointRef(RightArm, 4), JointRef(RightArm, 6), JointRef(RightArm, 0),
    JointRef(RightArm, 1), JointRef(RightArm, 2), JointRef(RightArm, 5),
    JointRef(Torso, 2), JointRef(Torso, 1)]

  predicate UpperJoint(r: JointRef) {
    r.group in {RightArm, LeftArm, Torso} && r.joint < JointCount(r.group)
  }

  /** The column holding an upper-body joint: the inverse of `UpperColumns`. */
  function ColumnOf(r: JointRef): nat
    requires UpperJoint(r)
  {
    match r.group
    case LeftArm => [4, 5, 6, 1, 2, 7, 3][r.joint]
    case RightArm => [11, 12, 13, 8, 9, 14, 10][r.joint]
    case Torso => [0, 16, 15][r.joint]
  }

  /** Every column names a distinct upper-body joint and every such joint has its column. */
  lemma UpperColumnsBijective()
    ensures |UpperColumns| == ArmJoints + ArmJoints + TorsoJoints
    ensures forall k :: 0 <= k < |UpperColumns| ==> UpperJoint(UpperColumns[k]) && ColumnOf(UpperColumns[k]) == k
    ensures forall r :: UpperJoint(r) ==> ColumnOf(r) < |UpperColumns| && UpperColumns[ColumnOf(r)] == r
  {
    forall r | UpperJoint(r)
      ensures ColumnOf(r) < |UpperColumns| && UpperColumns[ColumnOf(r)] == r
    {
      assert r.joint < 7;
    }
  }

  /** One tick of the upper body. */
  datatype UpperSample = UpperSample(ra: Pose, la: Pose, torso: Pose) {
    function Get(g: Limb): Pose
      requires g in {RightArm, LeftArm, Torso}
    {
      match g
      case RightArm => ra
      case LeftArm => la
      case Torso => torso
    }

    predicate WellFormed() {
      |ra| == ArmJoints && |la| == ArmJoints && |torso| == TorsoJoints
    }
  }

  function ColumnValue(line: seq<real>, g: Limb, j: nat): real
    requires g in {RightArm, LeftArm, Torso} && j < JointCount(g)
  {
    Field(line, FloatingBaseFields + ColumnOf(JointRef(g, j)))
  }

  /** One line of the full file, the base fields skipped and each column stored at its joint. */
  function ParseUpperLine(line: seq<real>): (s: UpperSample)
    ensures s.WellFormed()
    ensures forall k :: 0 <= k < |UpperColumns| ==>
      s.Get(UpperColumns[k].group)[UpperColumns[k].joint] == Field(line, FloatingBaseFields + k)
  {
    UpperColumnsBijective();
    UpperSample(
      seq(ArmJoints, j requires 0 <= j < ArmJoints => ColumnValue(line, RightArm, j)),
      seq(ArmJoints, j requires 0 <= j < ArmJoints => ColumnValue(line, LeftArm, j)),
      seq(TorsoJoints, j requires 0 <= j < TorsoJoints => ColumnValue(line, Torso, j)))
  }

  /** The line a recorder writes: the base fields, then each joint in column order. */
  function UpperLine(base: seq<real>, s: UpperSample): (line: seq<real>)
    requires |base| == FloatingBaseFields && s.WellFormed()
    ensures |line| == FloatingBaseFields + |UpperColumns|
    ensures ParseUpperLine(line) == s
  {
    UpperColumnsBijective();
    var cols := seq(|UpperColumns|, k requires 0 <= k < |UpperColumns| =>
      s.Get(UpperColumns[k].group)[UpperColumns[k].joint]);
    var line := base + cols;
    var p := ParseUpperLine(line);
    assert forall k :: 0 <= k < |UpperColumns| ==> Field(line, FloatingBaseFields + k) == cols[k];
    assert p.ra == s.ra;
    assert p.la == s.la;
    assert p.torso == s.torso;
    line
  }

  /** The upper-body trajectory, one matrix per group. */
  datatype UpperTrajectory = UpperTrajectory(ra: seq<Pose>, la: seq<Pose>, torso: seq<Pose>) {
    function Ticks(): nat { |ra| }

    predicate Valid() {
      |la| == |ra| && |torso| == |ra|
    }

    function At(c: nat): UpperSample
      requires Valid() && c < Ticks()
    {
      UpperSample(ra[c], la[c], torso[c])
    }
  }

  /** `loadFile`: one tick per line, the upper body filled through the column table. */
  function LoadUpperBody(f: File): (r: Option<UpperTrajectory>)
    ensures r.None? <==> f.Unreadable?
    ensures r.Some? ==> r.value.Valid() && r.value.Ticks() == |f.lines|
    ensures r.Some? ==> forall c :: 0 <= c < |f.lines| ==> r.value.At(c) == ParseUpperLine(f.lines[c])
  {
    match f
    case Unreadable => None
    case Lines(ls) =>
      var n := |ls|;
      Some(UpperTrajectory(
        seq(n, c requires 0 <= c < n => ParseUpperLine(ls[c]).ra),
        seq(n, c requires 0 <= c < n => ParseUpperLine(ls[c]).la),
        seq(n, c requires 0 <= c < n => ParseUpperLine(ls[c]).torso)))
  }

  /** The file a recorder writes for `u`, each line led by its floating-base fields. */
  function UpperFile(bases: seq<seq<real>>, u: UpperTrajectory): (f: File)
    requires u.Valid() && |bases| == u.Ticks()
    requires forall c :: 0 <= c < |bases| ==> |bases[c]| == FloatingBaseFields && u.At(c).WellFormed()
    ensures f.Lines? && |f.lines| == u.Ticks()
  {
    Lines(seq(u.Ticks(), c requires 0 <= c < u.Ticks() => UpperLine(bases[c], u.At(c))))
  }

  /** Loading what the recorder wrote gives back the upper-body trajectory, whatever the
      floating-base fields. */
  lemma LoadUpperBodyRoundTrip(bases: seq<seq<real>>, u: UpperTrajectory)
    requires u.Valid() && |bases| == u.Ticks()
    requires forall c :: 0 <= c < |bases| ==> |bases[c]| == FloatingBaseFields && u.At(c).WellFormed()
    ensures LoadUpperBody(UpperFile(bases, u)) == Some(u)
  {
    var f := UpperFile(bases, u);
    var r := LoadUpperBody(f).value;
    forall c | 0 <= c < u.Ticks()
      ensures r.At(c) == u.At(c)
    {
      assert f.lines[c] == UpperLine(bases[c], u.At(c));
    }
    assert forall c :: 0 <= c < u.Ticks() ==> r.ra[c] == r.At(c).ra && u.ra[c] == u.At(c).ra;
    assert forall c :: 0 <= c < u.Ticks() ==> r.la[c] == r.At(c).la && u.la[c] == u.At(c).la;
    assert forall c :: 0 <= c < u.Ticks() ==> r.torso[c] == r.At(c).torso && u.torso[c] == u.At(c).torso;
    assert r.ra == u.ra && r.la == u.la && r.torso == u.torso;
  }
}

=== FILE: playback.dfy ===
/** The playback session of `main`: start-index normalisation, loading, composition over the
    encoder baseline, the two operator confirmations, the move to the starting pose, and the
    fixed tick loop that clamps and dispatches one command per limb group.

    Driver acquisition, encoder reads, speed and mode set-up, delays and console output are
    outside the model: the baseline pose is an input, each operator answer is an input string,
    and every position command and the final driver release are appended to the session's
    event log. The reference accelerations and speeds sent to the boards are not logged. */
module Playback {
  import opened Joints
  import opened Safety
  import opened Loader
  import opened Composer

  /** What the session sends to the motion-control boards, in order. */
  datatype Event = Move(group: Limb, pose: Pose) | ReleaseDrivers

  datatype Phase =
    | Idle | Loaded | BaselineCaptured | AwaitingStartConfirmation | MovingToStart
    | AwaitingPlayConfirmation | Playing | Finished | Declined | Aborted

  predicate Terminal(p: Phase) {
    p == Finished || p == Declined || p == Aborted
  }

  /** The transitions of a session. The start index is checked right after loading, before
      any driver is opened or any encoder read. `Run` does not step through these: each of its
      branches records a fixed phase sequence, and `SessionsComplete` shows that each of those
      five sequences is a path of this relation. */
  predicate Step(a: Phase, b: Phase) {
    match a
    case Idle => b == Loaded || b == Aborted
    case Loaded => b == BaselineCaptured || b == Aborted
    case BaselineCaptured => b == AwaitingStartConfirmation
    case AwaitingStartConfirmation => b == MovingToStart || b == Declined
    case MovingToStart => b == AwaitingPlayConfirmation
    case AwaitingPlayConfirmation => b == Playing || b == Declined
    case Playing => b == Finished
    case _ => false
  }

  predicate Path(t: seq<Phase>) {
    forall i :: 0 < i < |t| ==> Step(t[i - 1], t[i])
  }

  /** A whole session: from `Idle`, by transitions, to a terminal phase. */
  predicate Completed(t: seq<Phase>) {
    |t| > 0 && t[0] == Idle && Path(t) && Terminal(t[|t| - 1])
  }

  /** The only answer that lets a confirmation gate pass. */
  const Confirm: string := "y"

  /** The start tick of the command line: 0 when absent, and a negative value reset to 0. */
  function StartIndex(requested: Option<int>): (s: nat)
    ensures requested.Some? && requested.value >= 0 ==> s == requested.value
    ensures requested.None? || requested.value < 0 ==> s == 0
  {
    match requested
    case None => 0
    case Some(v) => if v < 0 then 0 else v
  }

  /** Order of the moves to the starting pose: arms, legs, then torso. */
  const StartOrder: seq<Limb> := [RightArm, LeftArm, RightLeg, LeftLeg, Torso]

  /** Order of the moves within one tick: torso, arms, then legs. */
  const TickOrder: seq<Limb> := [Torso, RightArm, LeftArm, RightLeg, LeftLeg]

  /** One move per group of `order`, each carrying that group's pose of `p`. */
  function Moves(p: BodyPose, order: seq<Limb>): (r: seq<Event>)
    ensures |r| == |order|
  {
    seq(|order|, i requires 0 <= i < |order| => Move(order[i], p.Get(order[i])))
  }

  /** Moves of a clamped pose stay inside the tables. */
  lemma MovesSafe(p: BodyPose, order: seq<Limb>)
    requires Safe(p)
    ensures forall e :: e in Moves(p, order) ==> e.Move? && InBounds(e.group, e.pose)
  {
  }

  /** The five commands of tick `t`: its composed pose, clamped, one move per group. */
  function TickEvents(tr: Trajectory, t: nat): (r: seq<Event>)
    requires tr.Valid() && t < tr.Ticks()
    ensures |r| == 5
  {
    Moves(ClampedBody(tr.At(t)), TickOrder)
  }

  /** Commands of ticks `a` up to (not including) `b`, in tick order. */
  function Dispatched(tr: Trajectory, a: nat, b: nat): seq<Event>
    requires tr.Valid() && b <= tr.Ticks()
    decreases b
  {
    if b <= a then [] else Dispatched(tr, a, b - 1) + TickEvents(tr, b - 1)
  }

  /** Out-of-range joints summed over ticks `a` up to (not including) `b`. */
  function Violations(tr: Trajectory, a: nat, b: nat): nat
    requires tr.Valid() && b <= tr.Ticks()
    decreases b
  {
    if b <= a then 0 else Violations(tr, a, b - 1) + OutOfRange(tr.At(b - 1))
  }

  /** Ticks `a..b-1` issue five commands each. */
  lemma {:induction false} DispatchedLength(tr: Trajectory, a: nat, b: nat)
    requires tr.Valid() && a <= b <= tr.Ticks()
    ensures |Dispatched(tr, a, b)| == 5 * (b - a)
    decreases b
  {
    if a < b {
      DispatchedLength(tr, a, b - 1);
      assert |TickEvents(tr, b - 1)| == 5;
    }
  }

  /** Tick after tick, in increasing order: command `5*(t-a) + g` of the loop is the `g`-th
      command of tick `t`. */
  lemma {:induction false} DispatchedAt(tr: Trajectory, a: nat, b: nat, t: nat, g: nat)
    requires tr.Valid() && a <= t < b <= tr.Ticks() && g < 5
    ensures 5 * (t - a) + g < |Dispatched(tr, a, b)|
    ensures Dispatched(tr, a, b)[5 * (t - a) + g] == TickEvents(tr, t)[g]
    decreases b
  {
    DispatchedLength(tr, a, b - 1);
    var front := Dispatched(tr, a, b - 1);
    var last := TickEvents(tr, b - 1);
    var k := 5 * (t - a) + g;
    assert |last| == 5;
    assert Dispatched(tr, a, b) == front + last;
    if t < b - 1 {
      DispatchedAt(tr, a, b - 1, t, g);
      assert 5 * (t - a) + 5 <= 5 * (b - 1 - a);
      assert k < |front|;
      assert (front + last)[k] == front[k];
    } else {
      assert k == |front| + g;
      assert (front + last)[k] == last[g];
    }
  }

  /** Every command the tick loop sends lies inside its group's table. */
  lemma {:induction false} DispatchedSafe(tr: Trajectory, a: nat, b: nat)
    requires tr.Valid() && b <= tr.Ticks()
    ensures forall e :: e in Dispatched(tr, a, b) ==> e.Move? && InBounds(e.group, e.pose)
    decreases b
  {
    if a < b {
      DispatchedSafe(tr, a, b - 1);
      ClampedBodySafe(tr.At(b - 1));
      MovesSafe(ClampedBody(tr.At(b - 1)), TickOrder);
    }
  }

  /** A trajectory already inside the tables is played exactly as composed, with no violation. */
  lemma {:induction false} SafeTrajectoryPlayedVerbatim(tr: Trajectory, a: nat, b: nat)
    requires tr.Valid() && b <= tr.Ticks()
    requires forall t :: a <= t < b ==> Safe(tr.At(t))
    ensures Violations(tr, a, b) == 0
    ensures forall t :: a <= t < b ==> TickEvents(tr, t) == Moves(tr.At(t), TickOrder)
    decreases b
  {
    if a < b {
      SafeTrajectoryPlayedVerbatim(tr, a, b - 1);
      SafeHasNoViolations(tr.At(b - 1));
      forall t | a <= t < b
        ensures TickEvents(tr, t) == Moves(tr.At(t), TickOrder)
      {
        SafeUnchanged(tr.At(t));
      }
    }
  }

  /** The tick loop of `main`: for every tick from `start` to the last, copy the composed
      pose, clamp it, add its violations to the total, and send one move per group. */
  method PlayTrajectory(tr: Trajectory, start: nat) returns (log: seq<Event>, total: nat)
    requires tr.Valid() && start <= tr.Ticks()
    ensures log == Dispatched(tr, start, tr.Ticks())
    ensures total == Violations(tr, start, tr.Ticks())
    ensures |log| == 5 * (tr.Ticks() - start)
  {
    log := [];
    total := 0;
    var t := start;
    while t < tr.Ticks()
      invariant start <= t <= tr.Ticks()
      invariant log == Dispatched(tr, start, t)
      invariant total == Violations(tr, start, t)
    {
      var checked := SafetyCheck(tr.At(t));
      total := total + checked.violations;
      log := log + Moves(checked.pose, TickOrder);
      t := t + 1;
    }
    DispatchedLength(tr, start, tr.Ticks());
  }

  /** Load failure, or a start index past the last tick: the session stops before any driver
      is opened. */
  predicate Rejected(requested: Option<int>, f: File) {
    f.Unreadable? || StartIndex(requested) >= |f.lines|
  }

  /** The clamped starting pose the session sends first. */
  function StartCommand(h: HumanData, base: BodyPose): BodyPose
    requires h.Valid() && base.WellFormed() && h.Ticks() > 0
  {
    ClampedBody(StartingPoint(h, base).value)
  }

  /** The composed trajectory of an accepted session. */
  function Played(h: HumanData, base: BodyPose): Trajectory
    requires h.Valid() && base.WellFormed() && h.Ticks() > 0
  {
    ComposeTrajectory(h, base).value
  }

  /** What a session returns and leaves behind: its exit code, its phases and its commands. */
  datatype Outcome = Outcome(exitCode: int, trace: seq<Phase>, log: seq<Event>)

  /** The phase sequences of the five ways a session can end. */
  const FailedLoad: seq<Phase> := [Idle, Aborted]
  const StartOutOfRange: seq<Phase> := [Idle, Loaded, Aborted]
  const DeclinedStart: seq<Phase> := [Idle, Loaded, BaselineCaptured, AwaitingStartConfirmation, Declined]
  const DeclinedPlay: seq<Phase> :=
    [Idle, Loaded, BaselineCaptured, AwaitingStartConfirmation, MovingToStart, AwaitingPlayConfirmation, Declined]
  const FullSession: seq<Phase> :=
    [Idle, Loaded, BaselineCaptured, AwaitingStartConfirmation, MovingToStart, AwaitingPlayConfirmation,
     Playing, Finished]

  /** Each of the five is a whole session; the two rejections end in `Aborted`, the two
      declines in `Declined` and a full session in `Finished`. */
  lemma SessionsComplete()
    ensures Completed(FailedLoad) && FailedLoad[|FailedLoad| - 1] == Aborted
    ensures Completed(StartOutOfRange) && StartOutOfRange[|StartOutOfRange| - 1] == Aborted
    ensures Completed(DeclinedStart) && DeclinedStart[|DeclinedStart| - 1] == Declined
    ensures Completed(DeclinedPlay) && DeclinedPlay[|DeclinedPlay| - 1] == Declined
    ensures Completed(FullSession) && FullSession[|FullSession| - 1] == Finished
  {
  }

  /** Every command of a log lies inside its group's table. */
  predicate LogSafe(log: seq<Event>) {
    forall e :: e in log ==> e.ReleaseDrivers? || InBounds(e.group, e.pose)
  }

  /** The starting moves, the tick loop's commands and the final release keep every command
      inside the tables. */
  lemma SessionLogSafe(startCommand: BodyPose, tr: Trajectory, start: nat)
    requires Safe(startCommand) && tr.Valid() && start <= tr.Ticks()
    ensures LogSafe(Moves(startCommand, StartOrder) + [ReleaseDrivers])
    ensures LogSafe(Moves(startCommand, StartOrder) + Dispatched(tr, start, tr.Ticks()) + [ReleaseDrivers])
  {
    MovesSafe(startCommand, StartOrder);
    DispatchedSafe(tr, start, tr.Ticks());
  }

  /** `main` once the data is loaded, composed over the baseline and the start tick accepted:
      ask twice, move to the clamped starting pose, play `tr` from `start`, release the
      drivers. */
  method Session(startPose: BodyPose, tr: Trajectory, start: nat, answer1: string, answer2: string)
    returns (o: Outcome)
    requires startPose.WellFormed() && tr.Valid() && start < tr.Ticks()
    ensures o.exitCode == 0 && LogSafe(o.log)
    ensures answer1 != Confirm ==> o.trace == DeclinedStart && o.log == [ReleaseDrivers]
    ensures answer1 == Confirm && answer2 != Confirm ==>
      o.trace == DeclinedPlay && o.log == Moves(ClampedBody(startPose), StartOrder) + [ReleaseDrivers]
    ensures answer1 == Confirm && answer2 == Confirm ==>
      && o.trace == FullSession
      && o.log == Moves(ClampedBody(startPose), StartOrder) + Dispatched(tr, start, tr.Ticks()) + [ReleaseDrivers]
  {
    var checked := SafetyCheck(startPose);
    SessionLogSafe(checked.pose, tr, start);
    if answer1 != Confirm {
      return Outcome(0, DeclinedStart, [ReleaseDrivers]);
    }
    var log := Moves(checked.pose, StartOrder);
    if answer2 != Confirm {
      return Outcome(0, DeclinedPlay, log + [ReleaseDrivers]);
    }
    var played, _ := PlayTrajectory(tr, start);
    o := Outcome(0, FullSession, log + played + [ReleaseDrivers]);
  }

  /** `main` from the parsed start option to its return value. `base` stands for the encoder
      readings of the five groups; `answer1` and `answer2` are the operator's replies at the two
      confirmation prompts. The starting pose is clamped with the full five-group check. */
  method Run(requested: Option<int>, f: File, base: BodyPose, answer1: string, answer2: string)
    returns (o: Outcome)
    requires base.WellFormed()
    ensures Completed(o.trace) && LogSafe(o.log)
    ensures o.exitCode == -1 <==> Rejected(requested, f)
    ensures f.Unreadable? ==> o.trace == FailedLoad && o.log == []
    ensures f.Lines? && Rejected(requested, f) ==> o.trace == StartOutOfRange && o.log == []
    ensures !Rejected(requested, f) ==> o.exitCode == 0 && o.log != [] && o.log[|o.log| - 1] == ReleaseDrivers
    ensures !Rejected(requested, f) && answer1 != Confirm ==> o.trace == DeclinedStart && o.log == [ReleaseDrivers]
    ensures !Rejected(requested, f) && answer1 == Confirm && answer2 != Confirm ==>
      && o.trace == DeclinedPlay
      && o.log == Moves(StartCommand(LoadHumanData(f).value, base), StartOrder) + [ReleaseDrivers]
    ensures !Rejected(requested, f) && answer1 == Confirm && answer2 == Confirm ==>
      var h := LoadHumanData(f).value;
      && o.trace == FullSession
      && o.log == Moves(StartCommand(h, base), StartOrder)
                  + Dispatched(Played(h, base), StartIndex(requested), h.Ticks()) + [ReleaseDrivers]
  {
    SessionsComplete();
    var start := StartIndex(requested);
    var loaded := LoadHumanData(f);
    if loaded.None? {
      return Outcome(-1, FailedLoad, []);
    }
    var h := loaded.value;
    if start >= h.Ticks() {
      return Outcome(-1, StartOutOfRange, []);
    }
    o := Session(StartingPoint(h, base).value, ComposeTrajectory(h, base).value, start, answer1, answer2);
  }

  // ---------------------------------------------------------------------------------------
  // The starting-pose check as `main` writes it (line 878).

  /** The joints of an arm that, once clamped into the arm table, lie outside the leg row of
      the same index. */
  function LegPassViolations(arm: Pose): set<nat>
    requires |arm| == ArmJoints
  {
    set j: nat | j < LegJoints && !LegTable[j].Admits(Saturate(arm[j], ArmTable[j]))
  }

  /** The leg pass over a clamped arm counts exactly `LegPassViolations`. */
  lemma LegPassCount(arm: Pose)
    requires |arm| == ArmJoints
    ensures ClampFirst(SaturatePose(arm, ArmTable), LegTable, LegJoints).value.violations
         == |LegPassViolations(arm)|
  {
    var q := SaturatePose(arm, ArmTable);
    assert LegTable[..LegJoints] == LegTable;
    assert Violating(q[..LegJoints], LegTable) == LegPassViolations(arm);
  }

  /** The call `safety_check(RA, LA, T, RA, LA)` made on the starting pose: the arm vectors
      sit in both the arm and the leg slots, so each arm is clamped against the arm table and
      then its first six joints against the leg table (the leg loop taken at six joints: its
      iteration 6 reads past the leg tables and has no defined result); the
      leg vectors are never passed. The count adds up both passes: the arm and torso joints
      outside their own rows, then the arm joints that, once clamped, lie outside a leg row. */
  function StartingCheckAsWritten(b: BodyPose): (r: Checked)
    requires b.WellFormed()
    ensures r.pose.WellFormed()
    ensures r.pose.rl == b.rl && r.pose.ll == b.ll
    ensures r.pose.torso == ClampedBody(b).torso
    ensures forall j :: 0 <= j < LegJoints ==> r.pose.ra[j] == Saturate(Saturate(b.ra[j], ArmTable[j]), LegTable[j])
    ensures forall j :: 0 <= j < LegJoints ==> r.pose.la[j] == Saturate(Saturate(b.la[j], ArmTable[j]), LegTable[j])
    ensures r.pose.ra[LegJoints] == Saturate(b.ra[LegJoints], ArmTable[LegJoints])
    ensures r.pose.la[LegJoints] == Saturate(b.la[LegJoints], ArmTable[LegJoints])
    ensures r.violations == |Violating(b.ra, ArmTable)| + |Violating(b.la, ArmTable)| + |Violating(b.torso, TorsoTable)|
                          + |LegPassViolations(b.ra)| + |LegPassViolations(b.la)|
  {
    LegPassCount(b.ra);
    LegPassCount(b.la);
    var ra := SaturatePose(b.ra, ArmTable);
    var la := SaturatePose(b.la, ArmTable);
    var ra2 := ClampFirst(ra, LegTable, LegJoints).value;
    var la2 := ClampFirst(la, LegTable, LegJoints).value;
    Checked(BodyPose(ra2.value, la2.value, SaturatePose(b.torso, TorsoTable), b.rl, b.ll),
            |Violating(b.ra, ArmTable)| + |Violating(b.la, ArmTable)| + |Violating(b.torso, TorsoTable)|
            + ra2.violations + la2.violations)
  }

  /** Whatever the starting pose, the as-written check sends both elbows to 0: the arm row
      [15, 85] and the knee row [-99, 0] do not overlap, so the second pass always moves an
      elbow out of its arm row. (`ClampedBodySafe` shows the full check always sends a safe
      pose.) */
  lemma StartingCheckAsWrittenUnsafe(b: BodyPose)
    requires b.WellFormed()
    ensures StartingCheckAsWritten(b).pose.ra[3] == 0.0 && StartingCheckAsWritten(b).pose.la[3] == 0.0
    ensures !Safe(StartingCheckAsWritten(b).pose)
  {
    var r := StartingCheckAsWritten(b).pose;
    assert r.ra[3] == Saturate(Saturate(b.ra[3], ArmTable[3]), LegTable[3]);
    assert Saturate(b.ra[3], ArmTable[3]) >= 15.0;
    assert !TableOf(RightArm)[3].Admits(r.ra[3]);
  }

  /** An encoder baseline with both shoulder rolls at 20 and every other joint at 0. */
  const ShouldersRolledBaseline: BodyPose := BodyPose(
    [0.0, 20.0, 0.0, 0.0, 0.0, 0.0, 0.0], [0.0, 20.0, 0.0, 0.0, 0.0, 0.0, 0.0],
    [0.0, 0.0, 0.0], [0.0, 0.0, 0.0, 0.0, 0.0, 0.0], [0.0, 0.0, 0.0, 0.0, 0.0, 0.0])

  /** One recorded tick with the hips at 100 (above their maximum 85) and the elbows at 20. */
  const HipsHighElbowsBent: HumanData :=
    HumanData([100.0], [0.0], [0.0], [0.0], [0.0], [0.0], [0.0], [20.0], [0.0])

  /** The starting pose `startingPointHumanData` builds from those two. */
  const ElbowsBentHipsHigh: BodyPose := BodyPose(
    [0.0, 20.0, 0.0, 20.0, 0.0, 0.0, 0.0], [0.0, 20.0, 0.0, 20.0, 0.0, 0.0, 0.0],
    [0.0, 0.0, 0.0], [100.0, 0.0, 0.0, 0.0, 0.0, 0.0], [100.0, 0.0, 0.0, 0.0, 0.0, 0.0])

  /** A starting pose the program does build: as written, the elbows go out at 0, below their
      arm minimum 15, and both hips go out at 100, above their maximum 85, while every joint
      of it except the hips already lay inside its row. */
  lemma StartingCheckAsWrittenExample()
    ensures StartingPoint(HipsHighElbowsBent, ShouldersRolledBaseline) == Some(ElbowsBentHipsHigh)
    ensures StartingCheckAsWritten(ElbowsBentHipsHigh).pose.ra[3] == 0.0
    ensures StartingCheckAsWritten(ElbowsBentHipsHigh).pose.rl[0] == 100.0
    ensures StartingCheckAsWritten(ElbowsBentHipsHigh).pose.ll[0] == 100.0
    ensures !Safe(StartingCheckAsWritten(ElbowsBentHipsHigh).pose)
    ensures InBounds(RightArm, ElbowsBentHipsHigh.ra) && InBounds(LeftArm, ElbowsBentHipsHigh.la)
  {
    var p := StartingPoint(HipsHighElbowsBent, ShouldersRolledBaseline).value;
    assert p.ra == ElbowsBentHipsHigh.ra && p.la == ElbowsBentHipsHigh.la;
    assert p.torso == ElbowsBentHipsHigh.torso;
    assert p.rl == ElbowsBentHipsHigh.rl && p.ll == ElbowsBentHipsHigh.ll;
    StartingCheckAsWrittenUnsafe(ElbowsBentHipsHigh);
  }
}

=== FILE: safety.dfy ===
/** The safety envelope of `safety_check`: fixed per-joint [min, max] tables, the per-joint
    clamp with its violation count, and the full-body check applied before every dispatch. */
module Safety {
  import opened Joints

  /** Closed interval of admissible angles for one joint. */
  datatype Bound = Bound(lo: real, hi: real) {
    predicate Admits(x: real) { lo <= x <= hi }
  }

  /** One row per joint of a limb group. */
  type Table = seq<Bound>

  /** Every row has max >= min. */
  predicate Ordered(t: Table) {
    forall j :: 0 <= j < |t| ==> t[j].lo <= t[j].hi
  }

  /** Shared by both arms. */
  const ArmTable: Table := [
    Bound(-85.0, 6.0), Bound(15.0, 80.0), Bound(-15.0, 78.0), Bound(15.0, 85.0),
    Bound(-70.0, 60.0), Bound(-70.0, 0.0), Bound(-10.0, 30.0)]

  const TorsoTable: Table := [Bound(-25.0, 25.0), Bound(-8.0, 8.0), Bound(-10.0, 20.0)]

  /** Shared by both legs. */
  const LegTable: Table := [
    Bound(-30.0, 85.0), Bound(0.0, 80.0), Bound(-70.0, 70.0), Bound(-99.0, 0.0),
    Bound(-30.0, 30.0), Bound(-20.0, 20.0)]

  function TableOf(g: Limb): (t: Table)
    ensures |t| == JointCount(g)
    ensures Ordered(t)
  {
    match g
    case RightArm | LeftArm => ArmTable
    case Torso => TorsoTable
    case RightLeg | LeftLeg => LegTable
  }

  /** The nearest admissible angle: the reference meaning of "clamp into [lo, hi]". */
  function Saturate(x: real, b: Bound): real {
    if x > b.hi then b.hi else if x < b.lo then b.lo else x
  }

  /** A clamped value together with the number of limit violations it took. */
  datatype Clamped<T> = Clamped(value: T, violations: nat)

  /** One joint as `safety_check` handles it: a test against max that may overwrite the value,
      then a separate test of the (possibly overwritten) value against min. */
  function ClampJoint(x: real, b: Bound): (r: Clamped<real>)
    ensures b.lo <= b.hi ==> b.Admits(r.value) && r.value == Saturate(x, b)
    ensures b.lo <= b.hi ==> (r.violations == 0 <==> b.Admits(x))
    ensures b.lo <= b.hi ==> r.violations <= 1
  {
    var upper := if x > b.hi then Clamped(b.hi, 1) else Clamped(x, 0);
    if upper.value < b.lo then Clamped(b.lo, upper.violations + 1) else upper
  }

  /** Indices of the joints of `p` outside their row of `t`. */
  function Violating(p: Pose, t: Table): set<nat>
    requires |p| == |t|
  {
    set j: nat | j < |p| && !t[j].Admits(p[j])
  }

  lemma ViolatingSnoc(p: Pose, t: Table)
    requires 0 < |p| == |t|
    ensures |Violating(p, t)|
         == |Violating(p[..|p| - 1], t[..|t| - 1])| + (if t[|t| - 1].Admits(p[|p| - 1]) then 0 else 1)
  {
    var n := |p| - 1;
    var front := Violating(p[..n], t[..n]);
    if t[n].Admits(p[n]) {
      assert Violating(p, t) == front;
    } else {
      assert Violating(p, t) == front + {n};
      assert n !in front;
    }
  }

  /** Reference meaning of a group's clamp: every joint moved to its nearest admissible angle. */
  function SaturatePose(p: Pose, t: Table): (q: Pose)
    requires |p| == |t|
    ensures |q| == |p|
  {
    seq(|p|, j requires 0 <= j < |p| => Saturate(p[j], t[j]))
  }

  /** One limb group's loop of `safety_check`: each joint clamped in place into its row, and
      the violations counted. This is the loop itself, run once per group and tick; its result
      is the one `ClampFirst` describes for a bound equal to the group's joint count. */
  method ClampGroup(p: Pose, t: Table) returns (q: Pose, violations: nat)
    requires |p| == |t| && Ordered(t)
    ensures q == SaturatePose(p, t)
    ensures ClampFirst(p, t, |p|) == Some(Clamped(q, violations))
    ensures forall j :: 0 <= j < |q| ==> t[j].Admits(q[j])
    ensures violations == |Violating(p, t)|
  {
    q := p;
    violations := 0;
    var i := 0;
    while i < |p|
      invariant 0 <= i <= |p| == |q|
      invariant forall j :: 0 <= j < i ==> q[j] == Saturate(p[j], t[j]) && t[j].Admits(q[j])
      invariant forall j :: i <= j < |p| ==> q[j] == p[j]
      invariant violations == |Violating(p[..i], t[..i])|
    {
      var c := ClampJoint(q[i], t[i]);
      ViolatingSnoc(p[..i + 1], t[..i + 1]);
      assert p[..i + 1][..i] == p[..i] && t[..i + 1][..i] == t[..i];
      q := q[i := c.value];
      violations := violations + c.violations;
      i := i + 1;
    }
    assert p[..i] == p && t[..i] == t;
    assert q == SaturatePose(p, t);
    assert SaturatePose(p[..|p|], t[..|p|]) + p[|p|..] == q;
  }

  /** The result of `safety_check`'s loop `for (i = 0; i < n; i++)` for an arbitrary bound `n`,
      over a pose and a table whose lengths the C++ does not check. `ClampGroup` is that loop
      at `n == |p|`; this function states it for the bounds `safety_check` actually writes,
      which may differ. It has a result only while `i` stays inside both vectors; past either
      end the C++ reads and writes outside a vector, which has no defined result (`None`).
      Joints from `n` on are left untouched. */
  function ClampFirst(p: Pose, t: Table, n: nat): (r: Option<Clamped<Pose>>)
    ensures r.Some? <==> n <= |p| && n <= |t|
    ensures r.Some? ==> |r.value.value| == |p|
    ensures r.Some? ==> forall j :: 0 <= j < n ==> r.value.value[j] == Saturate(p[j], t[j])
    ensures r.Some? ==> forall j :: n <= j < |p| ==> r.value.value[j] == p[j]
  {
    if n > |p| || n > |t| then None
    else Some(Clamped(SaturatePose(p[..n], t[..n]) + p[n..], |Violating(p[..n], t[..n])|))
  }

  /** The leg loop bound `safety_check` writes (line 528), one past the six leg joints. */
  const LegLoopBoundAsWritten: nat := 7

  /** As written, the leg loop leaves both six-joint leg vectors and the six-row leg table. */
  lemma LegLoopAsWrittenOverruns(p: Pose)
    requires |p| == LegJoints
    ensures ClampFirst(p, LegTable, LegLoopBoundAsWritten).None?
  {
  }

  /** With the bound the tables evidently intend, the loop clamps the whole group. */
  lemma LegLoopCorrected(p: Pose)
    requires |p| == LegJoints
    ensures ClampFirst(p, LegTable, LegJoints) == Some(Clamped(SaturatePose(p, LegTable), |Violating(p, LegTable)|))
  {
    assert p[..LegJoints] == p;
    assert LegTable[..LegJoints] == LegTable;
    assert p[LegJoints..] == [];
    assert SaturatePose(p, LegTable) + [] == SaturatePose(p, LegTable);
  }

  /** `p` has `g`'s joint count and every joint lies inside its row. */
  predicate InBounds(g: Limb, p: Pose) {
    |p| == JointCount(g) && forall j :: 0 <= j < |p| ==> TableOf(g)[j].Admits(p[j])
  }

  /** Every group of `b` lies inside its table. */
  predicate Safe(b: BodyPose) {
    && InBounds(RightArm, b.ra) && InBounds(LeftArm, b.la) && InBounds(Torso, b.torso)
    && InBounds(RightLeg, b.rl) && InBounds(LeftLeg, b.ll)
  }

  /** Number of joints of `b`, over all five groups, outside their table rows. */
  function OutOfRange(b: BodyPose): nat
    requires b.WellFormed()
  {
    |Violating(b.ra, ArmTable)| + |Violating(b.la, ArmTable)| + |Violating(b.torso, TorsoTable)|
    + |Violating(b.rl, LegTable)| + |Violating(b.ll, LegTable)|
  }

  datatype Checked = Checked(pose: BodyPose, violations: nat)

  /** Reference result of the full-body check: every group saturated into its table. */
  function ClampedBody(b: BodyPose): (r: BodyPose)
    requires b.WellFormed()
    ensures r.WellFormed()
  {
    BodyPose(SaturatePose(b.ra, ArmTable), SaturatePose(b.la, ArmTable), SaturatePose(b.torso, TorsoTable),
             SaturatePose(b.rl, LegTable), SaturatePose(b.ll, LegTable))
  }

  /** Whatever goes in, the clamped body lies inside every table. */
  lemma ClampedBodySafe(b: BodyPose)
    requires b.WellFormed()
    ensures Safe(ClampedBody(b))
  {
  }

  /** `safety_check` on five distinct command vectors, with the six-joint leg loop. */
  method SafetyCheck(b: BodyPose) returns (r: Checked)
    requires b.WellFormed()
    ensures r.pose == ClampedBody(b) && Safe(r.pose)
    ensures r.violations == OutOfRange(b)
  {
    var ra, nra := ClampGroup(b.ra, ArmTable);
    var la, nla := ClampGroup(b.la, ArmTable);
    var torso, ntorso := ClampGroup(b.torso, TorsoTable);
    var rl, nrl := ClampGroup(b.rl, LegTable);
    var ll, nll := ClampGroup(b.ll, LegTable);
    r := Checked(BodyPose(ra, la, torso, rl, ll), nra + nla + ntorso + nrl + nll);
  }

  lemma ViolatingNonEmpty(p: Pose, t: Table)
    requires |p| == |t|
    requires exists j :: 0 <= j < |p| && !t[j].Admits(p[j])
    ensures |Violating(p, t)| > 0
  {
    var j :| 0 <= j < |p| && !t[j].Admits(p[j]);
    assert j in Violating(p, t);
  }

  lemma ViolatingEmpty(p: Pose, t: Table)
    requires |p| == |t|
    requires forall j :: 0 <= j < |p| ==> t[j].Admits(p[j])
    ensures |Violating(p, t)| == 0
  {
    assert Violating(p, t) == {};
  }

  /** A pose is counted as violation-free exactly when it is already safe. */
  lemma SafeHasNoViolations(b: BodyPose)
    requires b.WellFormed()
    ensures OutOfRange(b) == 0 <==> Safe(b)
  {
    if Safe(b) {
      ViolatingEmpty(b.ra, ArmTable);
      ViolatingEmpty(b.la, ArmTable);
      ViolatingEmpty(b.torso, TorsoTable);
      ViolatingEmpty(b.rl, LegTable);
      ViolatingEmpty(b.ll, LegTable);
    } else if !InBounds(RightArm, b.ra) {
      ViolatingNonEmpty(b.ra, ArmTable);
    } else if !InBounds(LeftArm, b.la) {
      ViolatingNonEmpty(b.la, ArmTable);
    } else if !InBounds(Torso, b.torso) {
      ViolatingNonEmpty(b.torso, TorsoTable);
    } else if !InBounds(RightLeg, b.rl) {
      ViolatingNonEmpty(b.rl, LegTable);
    } else {
      ViolatingNonEmpty(b.ll, LegTable);
    }
  }

  /** A pose already inside every table is dispatched exactly as composed. */
  lemma SafeUnchanged(b: BodyPose)
    requires b.WellFormed() && Safe(b)
    ensures ClampedBody(b) == b
  {
    var r := ClampedBody(b);
    assert r.ra == b.ra;
    assert r.la == b.la;
    assert r.torso == b.torso;
    assert r.rl == b.rl;
    assert r.ll == b.ll;
  }

  /** Clamping twice changes nothing more and counts nothing more. */
  lemma ClampIdempotent(b: BodyPose)
    requires b.WellFormed()
    ensures ClampedBody(ClampedBody(b)) == ClampedBody(b)
    ensures OutOfRange(ClampedBody(b)) == 0
  {
    ClampedBodySafe(b);
    SafeHasNoViolations(ClampedBody(b));
    SafeUnchanged(ClampedBody(b));
  }

  /** A worked case: arm joint 0 at 100 becomes 6 with one violation, and
      at -50 it is kept with none. */
  lemma ShoulderPitchExample()
    ensures ClampJoint(100.0, ArmTable[0]) == Clamped(6.0, 1)
    ensures ClampJoint(-50.0, ArmTable[0]) == Clamped(-50.0, 0)
  {
  }
}
